=== FILE: README.md ===
# Chock-a-block buyer: buying loop and HTTP wrapper, modelled in Dafny

This project models the part of the Stockfighter client that holds logic:

- the buying loop `keep_buying` of `chock_a_block/start.py`;
- the response handlers `unwrap_response` (library) and `handle_response_error` (script);
- order construction in `API.order`, together with `buy`, `sell`, `quote`, `cancel_order` and `time_bounded_order`.

The network, the clock and the venue are inputs. A call takes the HTTP response the venue would give. It returns the requests it sends, in order, with its result or the exception it raises.

Files:

- `json.dfy` (module `Json`): decoded JSON values, `dict.get`, Python's `str` and string `or`, and decimal rendering with a proof that it parses back.
- `responses.dfy` (module `Responses`): one classification, `Classify`, and the two handlers built on it. The handlers differ only in the exception classes they raise and in how they report an undecodable body.
- `orders.dfy` (module `Orders`): the order checks, the payload and its JSON form, URLs, and call traces. `Client` selects which of the two `API` classes is meant: they differ only in their response handler.
- `buy_loop.dfy` (module `BuyLoop`): `Decide` and `ApplyFill`, and `RunFrom`, which folds them over a sequence of (quote, fill) events. Also the method `RunBuyLoop`, which runs the same fold as a loop with the invariant `0 <= bought <= toBuy` when every consumed fill lies between 0 and its order size.

The loop works in exact integers:

- the gate `ask > first_ask * 0.95` becomes `100 * ask > 95 * firstAsk`;
- the seed `int(target / 0.95)` becomes `100 * target / 95`, truncated toward zero.

Two consequences are proved:

- with a positive target, no order is ever priced above the target;
- truncation can still refuse an ask equal to the target. A target of 100 seeds a reference ask of 105, so the ceiling is 99.75.

What `keep_buying` does, and does not do:

- The ceiling is never stored: each iteration compares the ask with 95% of the reference ask, which is the seed from the target or else the first nonzero usable ask. `first_ask or ask` does not latch an ask of 0: with no reference yet, such an ask passes the gate (`0 > 0` is false) and is bought, and the next nonzero ask becomes the reference.
- The code never raises the ceiling after a quiet interval, never lowers it after a fill, and has no client ceiling.
- The code does not deduplicate quotes.
- An `askSize` of 0 still places an order for 0 shares when the price passes the gate.

## Model

| member | source | states |
|---|---|---|
| Json.PyOr | wrappers.py:138-140 | `x or y` on strings: a non-empty explicit value wins; `None` or `""` gives the fallback; the result is always one of the two |
| Json.IntRoundTrip | wrappers.py:28 | the `%d` rendering of any integer parses back to that integer |
| Json.IntToString | wrappers.py:28 | `%d` of an integer: non-empty, and starting with '-' exactly when the integer is negative |
| Json.PyStr | wrappers.py:34 | `str()` of a JSON value: a string is itself, an integer parses back, null is "None", and anything but a string renders non-empty |
| Responses.Classify | wrappers.py:26-35 | status 400 or above fails with that status whatever the body; otherwise an undecodable body fails; a decoded object is accepted unchanged exactly when its `ok` is not the boolean false; a rejection carries `body.get('error')`; a decoded body that is not an object fails as not an object |
| Responses.HttpErrorMessage | wrappers.py:28 | the message is "HTTP Error: " followed by text that parses back to the status |
| Responses.ApiErrorMessage | wrappers.py:34 | because `%` binds tighter than `or`, the message is always "API Error: " + str(error) and never "unspecified" |
| Responses.UndecodableMessage | wrappers.py:32 | the message is "Could not extract json body: " followed by the text between two quote characters, from which the text is recovered exactly |
| Responses.UnwrapResponse | wrappers.py:26-35 | status 400 or above raises HTTPError with the status message; an undecodable body raises APIError with the message "Could not extract json body: " and the quoted text; a decoded object raises APIError exactly when `ok` is false, else it is returned unchanged; a decoded body that is not an object raises AttributeError from `body.get`; every other exception is an HTTPError |
| Responses.HandleResponseError | chock_a_block/start.py:11-17 | the same outcomes, with plain `Exception`; a decoding failure escapes as the decoder's own error; a decoded body that is not an object raises AttributeError from `body.get` |
| Responses.StatusDominates | wrappers.py:27-28 | two responses with the same status of 400 or above give the same result, whatever their bodies |
| Responses.OnlyFalseIsRejected | wrappers.py:33-35 | with status below 400, a decoded object is an error iff `ok` is the boolean false; a missing `ok`, or `ok` equal to 0, returns the body |
| Responses.MissingDetailIsNone | wrappers.py:34 | `{"ok": false}` with no `error` raises APIError "API Error: None" |
| Responses.HandlersAgree | chock_a_block/start.py:11-17 | the two handlers accept the same responses with the same body; on decodable bodies and on error statuses they raise with equal messages, the library's class being a subclass of the script's |
| Orders.CheckOrder | wrappers.py:135-136 | passes iff the direction is in {buy, sell} and the type is one of the four order types; the direction is checked first; failures are AssertionError |
| Orders.PayloadRoundTrip | wrappers.py:137-146 | the posted JSON document reads back as exactly the order built |
| Orders.BuildPayload | wrappers.py:137-145 | account, venue and symbol are the explicit argument when non-empty, else the instance default; qty, direction, orderType and price are copied verbatim |
| Orders.PayloadJson | wrappers.py:146 | the document posted is a JSON object with exactly the seven keys account, venue, symbol, qty, direction, orderType and price |
| Orders.Order | wrappers.py:133-147 | an invalid direction or type raises AssertionError with nothing sent; otherwise exactly one POST is sent, to the orders URL of the payload's own venue and symbol, whose body is exactly the JSON document of the built order, and the result is the handled response |
| Orders.Buy | wrappers.py:149-150 | is `order` with direction 'buy'; with a valid type, the posted order's direction is 'buy' |
| Orders.Sell | wrappers.py:152-153 | is `order` with direction 'sell'; with a valid type, the posted order's direction is 'sell' |
| Orders.Quote | wrappers.py:160-166 | sends exactly one GET to the quote URL of the resolved venue and stock; the result is the handler's verdict on the response, so an accepted response's body is returned |
| Orders.QuoteAndOrderShareStock | wrappers.py:110-112 | with the same overrides, the quote URL and the orders URL both extend the stock URL of the same venue and symbol |
| Orders.CancelOrder | wrappers.py:177-185 | sends exactly one DELETE to the URL of the given order id under the resolved venue and stock; the result is the handler's verdict on the response |
| Orders.CancelUrlCarriesId | wrappers.py:113 | the cancel URL is the orders URL, a slash, and text that reads back as the numeric order id |
| Orders.TimeBoundedOrder | wrappers.py:155-158 | a failed placement is returned as is, with no wait and no cancel; after a successful placement the trace starts with the placement's own POST and then a wait of the timeout; a placement body without `id` then raises KeyError and nothing more is sent; otherwise a DELETE of the returned id follows and the result is the cancel's response |
| BuyLoop.TruncDiv95 | chock_a_block/start.py:116 | `int(a / 0.95)`: the quotient of 100a by 95, truncated toward zero, bracketed on both sides |
| BuyLoop.SeedFirstAsk | chock_a_block/start.py:114-116 | no target or a zero target seeds 0; a positive target t seeds the f with 95f <= 100t < 95(f+1); any nonzero target seeds a nonzero value |
| BuyLoop.Permits | chock_a_block/start.py:130 | the gate `not (ask > first_ask * 0.95)` exactly: with a positive reference ask a permitted ask is strictly below it, and an ask at or above a positive reference is refused |
| BuyLoop.Latch | chock_a_block/start.py:129 | `first_ask or ask`: a nonzero reference ask is kept, a zero one is replaced by the ask |
| BuyLoop.Decide | chock_a_block/start.py:124-134 | a quote without ask or askSize skips and changes nothing; otherwise the reference ask latches, an order is placed iff 100·ask <= 95·reference, at exactly the ask, for min(remaining, askSize), which never exceeds what remains |
| BuyLoop.ApplyFill | chock_a_block/start.py:136-137 | the bought count moves by exactly the reported fill; the reference ask is untouched |
| BuyLoop.RunFrom | chock_a_block/start.py:119-137 | the `while` loop as a fold over (quote, fill) events: once the count reaches the number to buy it stops with nothing placed, and it places at most one order per quote |
| BuyLoop.FillKeepsBounds | chock_a_block/start.py:133-137 | a buying iteration with a fill between 0 and the order size keeps 0 <= bought <= toBuy and never lowers the count |
| BuyLoop.RunAccounting | chock_a_block/start.py:136-137 | after any run, the bought count is the starting count plus the sum of the fills of the orders placed |
| BuyLoop.RunKeepsBounds | chock_a_block/start.py:119-137 | with deliverable fills, every run keeps 0 <= bought <= toBuy, never lowers the count, and its fills total at most what remained |
| BuyLoop.RunKeepsLatch | chock_a_block/start.py:129 | once the reference ask is nonzero, no run changes it |
| BuyLoop.RunSplits | chock_a_block/start.py:119-139 | running two event sequences one after the other is running their concatenation |
| BuyLoop.StopsAtTarget | chock_a_block/start.py:119 | once the count reaches the number to buy, later quotes place no order and change nothing |
| BuyLoop.RunPricesUnderCeiling | chock_a_block/start.py:130-134 | from a positive reference ask, every order placed is priced at or below 95% of it |
| BuyLoop.NeverAboveTarget | chock_a_block/start.py:114-132 | with a positive target, no order is ever priced above the target |
| BuyLoop.TargetItselfMayBeRefused | chock_a_block/start.py:114-132 | target 100 seeds 105, and an ask of 100 is then refused as above the ceiling |
| BuyLoop.FirstQuoteNeverBought | chock_a_block/start.py:129-132 | without a target, the first usable quote with a positive ask becomes the reference ask and is not bought |
| BuyLoop.ZeroAskSizeStillOrders | chock_a_block/start.py:133-134 | an askSize of 0 at a permitted price still places an order, of size 0 |
| BuyLoop.DispatchIsLimitBuyAtAsk | chock_a_block/start.py:134 | every decided order passes `order`'s checks and is posted as a 'limit' 'buy' of the decided size at the quote's ask, with the instance defaults |
| BuyLoop.DispatchCall | chock_a_block/start.py:65-69 | the call at start.py:134: a failed placement is the call's result, with no wait; otherwise it posts the order, then waits the default 0.5 s; a placement body without `id` then raises KeyError with nothing more sent; when the placement returns an `id`, it cancels that id under the instance's own venue and stock, and its result is the cancel's response |
| BuyLoop.ZeroAskDoesNotLatch | chock_a_block/start.py:129-134 | with no reference ask yet, an ask of 0 leaves the reference at 0 and is bought at price 0 |
| BuyLoop.ZeroThenHundred | chock_a_block/start.py:119-137 | without a target, asks 0 then 100 place one order at 0 and end with 100 as the reference ask |
| BuyLoop.RunBuyLoop | chock_a_block/start.py:110-139 | for every event sequence, whatever the fills, the loop computes the same run as the fold and places at most one order per quote; a nonzero target's seed survives to the end; when every consumed fill lies between 0 and its order size, it ends with 0 <= bought, and bought <= toBuy when toBuy >= 0 |

## Left out

- The `Web` class (wrappers.py:38-105) is not modelled. It covers login by HTML scraping, reading `session.json`, and stopping, restarting and resuming instances: network and file I/O with no decision logic.
- `WebsocketManager` and `stock_tickertape` (wrappers.py:187-204) are not modelled: they are connection plumbing.
- `order_status` is not modelled. In both files it refers to a `self.sessions` attribute that does not exist.
- Not modelled in either `API` class: construction and sessions. This covers the API key header, `os.getenv` defaults, `__enter__`/`__exit__`, argument parsing, `main` and the progress `print`s.
- Logging is not modelled. The `%`-formatting of a logging call is lazy, but the argument `price / 100` of the library's `order` (wrappers.py:134) is computed eagerly, so there a non-numeric price raises TypeError before the checks. Prices are integers in the model (see `Orders.OrderParams`).
- Orders.Api: the script's defaults come from the environment and may be `None`; the model takes them as strings.
- Orders.CheckOrder: the checks are `assert` statements, which Python skips under `-O`; the model always performs them. In the real message the order of the set elements depends on string hashing.
- Orders.TimeBoundedOrder: the model assumes `venue` and `stock` are passed by keyword, as the only caller does. Passed positionally, they would not reach the cancel.
- Responses.UnwrapResponse: the `response` object that HTTPError carries as a second argument is not modelled.
- Responses.UndecodableMessage: `%r` of the text is modelled as the text between single quotes. Python's choice of quote character and its escaping are not modelled.
- Json.PyStr: arrays and objects render as the fixed markers "[...]" and "{...}", not as Python's repr of their contents.
- Json.Value: JSON numbers are integers only. Floating-point values are not modelled.
- BuyLoop.SeedFirstAsk: IEEE double arithmetic is replaced by exact integers, in the seed `int(target / 0.95)` and the gate `ask > first_ask * 0.95`. Doubles can differ from exact arithmetic at edge values.
- BuyLoop.RunBuyLoop: the source loop can run forever; the model runs over a finite event sequence. The 1.2-second sleep after a refused price is not recorded.
- BuyLoop.RunBuyLoop: the model assumes every call succeeds. In the source, an exception from `api.quote()`, from `time_bounded_order`, or from a missing `totalFilled` ends the loop.
- BuyLoop.Quote: fields are modelled only as absent or integer. A present float `ask` would flow through the comparison, `min` and the order, and a present non-numeric `ask` would raise a TypeError in the comparison; neither is modelled (see Json.Value). The progress-only variable `ask` is not modelled either.
- BuyLoop.ValidFills: the venue's fill is an input. `0 <= filled <= order size` is a hypothesis of the bound lemmas; the code never checks it.

=== FILE: buy_loop.dfy ===
/**
 The buying loop of `chock_a_block/start.py` (`keep_buying`). Its state is
 the reference ask `firstAsk`, which fixes the price ceiling at 95% of it, and
 the number of shares bought so far; the number of shares to buy is fixed for
 the run. Each iteration reads a quote and either skips or places a
 time-bounded limit buy at the current ask and adds the reported fill.

 Floating point is replaced by exact integers: the gate `ask > first_ask * 0.95`
 is `100 * ask > 95 * firstAsk`, and the seed `int(target / 0.95)` is the
 truncation of `100 * target / 95` toward zero.

 The quote service and the venue's fill are inputs: a run folds `Decide` and
 `ApplyFill` over a sequence of events, each a quote together with the fill
 the venue would report if an order were placed on it.
 */
module BuyLoop {
  import opened Json
  import Orders
  import Responses

  /** The two quote fields the loop reads; `None` when the field is absent. */
  datatype Quote = Quote(ask: Option<int>, askSize: Option<int>)

  datatype State = State(firstAsk: int, bought: int)

  datatype SkipReason =
    | MissingField   // the quote has no `ask` or no `askSize`
    | AboveCeiling   // the ask is above 95% of the reference ask

  datatype Decision = Skip(reason: SkipReason) | Buy(size: int, price: int)

  /** One iteration's decision and the state it leaves before any fill. */
  datatype Tick = Tick(next: State, decision: Decision)

  /** One iteration's inputs: the quote read, and the fill the cancel of the
      order would report (unused when the iteration skips). */
  datatype Event = Event(quote: Quote, filled: int)

  datatype Placed = Placed(size: int, price: int, filled: int)

  /** The state a run ends in, and the orders it placed in order. */
  datatype Run = Run(final: State, placed: seq<Placed>)

  /** Python's `int(a / 0.95)` of an integer `a`, exactly: `100 * a / 95`
      truncated toward zero. */
  function TruncDiv95(a: int): (q: int)
    ensures a >= 0 ==> 0 <= q && 95 * q <= 100 * a < 95 * (q + 1)
    ensures a < 0 ==> q <= 0 && 95 * (q - 1) < 100 * a <= 95 * q
  {
    if a >= 0 then (100 * a) / 95 else -((-100 * a) / 95)
  }

  /** The initial reference ask: `int(target / 0.95)` for a truthy target,
      else 0. */
  function SeedFirstAsk(target: Option<int>): (f: int)
    ensures target == None || target == Some(0) ==> f == 0
    ensures target.Some? && target.value > 0 ==>
      0 < f && 95 * f <= 100 * target.value < 95 * (f + 1)
    ensures target.Some? && target.value != 0 ==> f != 0
  {
    match target
    case None => 0
    case Some(t) => if t != 0 then TruncDiv95(t) else 0
  }

  function Initial(target: Option<int>): State
  {
    State(SeedFirstAsk(target), 0)
  }

  /** `first_ask or ask`: the reference ask latches on its first nonzero value. */
  function Latch(firstAsk: int, ask: int): (f: int)
    ensures firstAsk != 0 ==> f == firstAsk
    ensures firstAsk == 0 ==> f == ask
  {
    if firstAsk != 0 then firstAsk else ask
  }

  /** `not (ask > first_ask * 0.95)`, in exact arithmetic. */
  predicate Permits(firstAsk: int, ask: int)
    ensures Permits(firstAsk, ask) && firstAsk > 0 ==> ask < firstAsk
    ensures ask > 0 && ask >= firstAsk ==> !Permits(firstAsk, ask)
  {
    100 * ask <= 95 * firstAsk
  }

  /** The decision part of one loop iteration. */
  function Decide(toBuy: int, s: State, q: Quote): (t: Tick)
    ensures q.ask.None? || q.askSize.None? ==> t == Tick(s, Skip(MissingField))
    ensures q.ask.Some? && q.askSize.Some? ==>
      && t.next == State(Latch(s.firstAsk, q.ask.value), s.bought)
      && (t.decision.Buy? <==> Permits(t.next.firstAsk, q.ask.value))
      && (t.decision.Skip? ==> t.decision.reason == AboveCeiling)
    ensures t.decision.Buy? ==>
      && t.decision.price == q.ask.value
      && t.decision.size <= toBuy - s.bought
      && t.decision.size <= q.askSize.value
      && (t.decision.size == toBuy - s.bought || t.decision.size == q.askSize.value)
  {
    match (q.ask, q.askSize)
    case (Some(ask), Some(askSize)) =>
      var firstAsk := Latch(s.firstAsk, ask);
      var next := State(firstAsk, s.bought);
      if !Permits(firstAsk, ask) then Tick(next, Skip(AboveCeiling))
      else
        var remaining := toBuy - s.bought;
        Tick(next, Buy(if remaining <= askSize then remaining else askSize, ask))
    case _ => Tick(s, Skip(MissingField))
  }

  /** `shares_bought += filled`. */
  function ApplyFill(s: State, filled: int): (s': State)
    ensures s'.firstAsk == s.firstAsk
    ensures s'.bought - s.bought == filled
  {
    s.(bought := s.bought + filled)
  }

  /** The loop bound `0 <= shares_bought <= shares_to_buy`. */
  predicate Within(toBuy: int, s: State)
  {
    0 <= s.bought <= toBuy
  }

  /** The loop from state `s` over `events`: it stops when the events run out
      or once the bought count reaches the number to buy. */
  function RunFrom(toBuy: int, s: State, events: seq<Event>): (r: Run)
    ensures s.bought >= toBuy ==> r == Run(s, [])
    ensures |r.placed| <= |events|
    decreases |events|
  {
    if |events| == 0 || s.bought >= toBuy then Run(s, [])
    else
      var t := Decide(toBuy, s, events[0].quote);
      match t.decision
      case Skip(_) => RunFrom(toBuy, t.next, events[1..])
      case Buy(size, price) =>
        var rest := RunFrom(toBuy, ApplyFill(t.next, events[0].filled), events[1..]);
        Run(rest.final, [Placed(size, price, events[0].filled)] + rest.placed)
  }

  /** What the loop assumes of the venue without checking it: every fill it
      consumes lies between 0 and the size of the order it answers. */
  predicate ValidFills(toBuy: int, s: State, events: seq<Event>)
    decreases |events|
  {
    if |events| == 0 || s.bought >= toBuy then true
    else
      var t := Decide(toBuy, s, events[0].quote);
      match t.decision
      case Skip(_) => ValidFills(toBuy, t.next, events[1..])
      case Buy(size, _) =>
        0 <= events[0].filled <= size
        && ValidFills(toBuy, ApplyFill(t.next, events[0].filled), events[1..])
  }

  function SumFilled(placed: seq<Placed>): int
    decreases |placed|
  {
    if |placed| == 0 then 0 else placed[0].filled + SumFilled(placed[1..])
  }

  /** One buying iteration keeps the bound and never lowers the count. */
  lemma FillKeepsBounds(toBuy: int, s: State, q: Quote, filled: int)
    requires Within(toBuy, s) && s.bought < toBuy
    requires Decide(toBuy, s, q).decision.Buy?
    requires 0 <= filled <= Decide(toBuy, s, q).decision.size
    ensures var s' := ApplyFill(Decide(toBuy, s, q).next, filled);
      Within(toBuy, s') && s'.bought >= s.bought
  {
  }

  /** The bought count grows by exactly the fills of the orders placed. */
  lemma {:induction false} RunAccounting(toBuy: int, s: State, events: seq<Event>)
    ensures RunFrom(toBuy, s, events).final.bought == s.bought + SumFilled(RunFrom(toBuy, s, events).placed)
    decreases |events|
  {
    if |events| > 0 && s.bought < toBuy {
      var t := Decide(toBuy, s, events[0].quote);
      match t.decision
      case Skip(_) =>
        RunAccounting(toBuy, t.next, events[1..]);
      case Buy(size, price) =>
        var s' := ApplyFill(t.next, events[0].filled);
        RunAccounting(toBuy, s', events[1..]);
        var rest := RunFrom(toBuy, s', events[1..]);
        var placed := [Placed(size, price, events[0].filled)] + rest.placed;
        assert placed[1..] == rest.placed;
    }
  }

  /** With fills the venue can deliver, `0 <= bought <= toBuy` holds at the
      end of every run that starts inside it, the count never drops, and the
      fills together never exceed what remained to buy. */
  lemma {:induction false} RunKeepsBounds(toBuy: int, s: State, events: seq<Event>)
    requires Within(toBuy, s)
    requires ValidFills(toBuy, s, events)
    ensures Within(toBuy, RunFrom(toBuy, s, events).final)
    ensures RunFrom(toBuy, s, events).final.bought >= s.bought
    ensures 0 <= SumFilled(RunFrom(toBuy, s, events).placed) <= toBuy - s.bought
    decreases |events|
  {
    RunAccounting(toBuy, s, events);
    if |events| > 0 && s.bought < toBuy {
      var t := Decide(toBuy, s, events[0].quote);
      match t.decision
      case Skip(_) =>
        RunKeepsBounds(toBuy, t.next, events[1..]);
      case Buy(size, price) =>
        FillKeepsBounds(toBuy, s, events[0].quote, events[0].filled);
        RunKeepsBounds(toBuy, ApplyFill(t.next, events[0].filled), events[1..]);
    }
  }

  /** Once the reference ask is nonzero, no run changes it. */
  lemma {:induction false} RunKeepsLatch(toBuy: int, s: State, events: seq<Event>)
    requires s.firstAsk != 0
    ensures RunFrom(toBuy, s, events).final.firstAsk == s.firstAsk
    decreases |events|
  {
    if |events| > 0 && s.bought < toBuy {
      var t := Decide(toBuy, s, events[0].quote);
      match t.decision
      case Skip(_) =>
        RunKeepsLatch(toBuy, t.next, events[1..]);
      case Buy(_, _) =>
        RunKeepsLatch(toBuy, ApplyFill(t.next, events[0].filled), events[1..]);
    }
  }

  /** A run splits at any point: the second part continues from where the
      first part ended. */
  lemma {:induction false} RunSplits(toBuy: int, s: State, e1: seq<Event>, e2: seq<Event>)
    ensures var r1 := RunFrom(toBuy, s, e1);
      var r2 := RunFrom(toBuy, r1.final, e2);
      RunFrom(toBuy, s, e1 + e2) == Run(r2.final, r1.placed + r2.placed)
    decreases |e1|
  {
    if |e1| == 0 {
      assert e1 + e2 == e2;
    } else if s.bought >= toBuy {
      if |e2| > 0 {
        assert |e1 + e2| > 0;
      }
    } else {
      assert (e1 + e2)[0] == e1[0];
      assert (e1 + e2)[1..] == e1[1..] + e2;
      var t := Decide(toBuy, s, e1[0].quote);
      match t.decision
      case Skip(_) =>
        RunSplits(toBuy, t.next, e1[1..], e2);
      case Buy(size, price) =>
        var s' := ApplyFill(t.next, e1[0].filled);
        RunSplits(toBuy, s', e1[1..], e2);
        var r1 := RunFrom(toBuy, s', e1[1..]);
        var r2 := RunFrom(toBuy, r1.final, e2);
        assert [Placed(size, price, e1[0].filled)] + (r1.placed + r2.placed)
            == ([Placed(size, price, e1[0].filled)] + r1.placed) + r2.placed;
    }
  }

  /** Once the bought count reaches the number to buy, no further order is
      placed and nothing changes, whatever quotes follow. */
  lemma StopsAtTarget(toBuy: int, s: State, e1: seq<Event>, e2: seq<Event>)
    requires RunFrom(toBuy, s, e1).final.bought >= toBuy
    ensures RunFrom(toBuy, s, e1 + e2) == RunFrom(toBuy, s, e1)
  {
    RunSplits(toBuy, s, e1, e2);
    var r1 := RunFrom(toBuy, s, e1);
    assert RunFrom(toBuy, r1.final, e2) == Run(r1.final, []);
    assert r1.placed + [] == r1.placed;
  }

  /** With a positive reference ask, every order a run places is priced at
      or below 95% of it. */
  lemma {:induction false} RunPricesUnderCeiling(toBuy: int, s: State, events: seq<Event>)
    requires s.firstAsk > 0
    ensures forall i :: 0 <= i < |RunFrom(toBuy, s, events).placed| ==>
      Permits(s.firstAsk, RunFrom(toBuy, s, events).placed[i].price)
    decreases |events|
  {
    if |events| > 0 && s.bought < toBuy {
      var t := Decide(toBuy, s, events[0].quote);
      match t.decision
      case Skip(_) =>
        RunPricesUnderCeiling(toBuy, t.next, events[1..]);
      case Buy(size, price) =>
        RunPricesUnderCeiling(toBuy, ApplyFill(t.next, events[0].filled), events[1..]);
    }
  }

  /** With a positive target, no order is ever placed above the target. */
  lemma NeverAboveTarget(toBuy: int, target: int, events: seq<Event>)
    requires target > 0
    ensures forall i :: 0 <= i < |RunFrom(toBuy, Initial(Some(target)), events).placed| ==>
      RunFrom(toBuy, Initial(Some(target)), events).placed[i].price <= target
  {
    RunPricesUnderCeiling(toBuy, Initial(Some(target)), events);
  }

  /** Because the seed truncates, an ask equal to the target can be refused:
      a target of 100 gives a reference ask of 105 and a ceiling of 99.75. */
  lemma TargetItselfMayBeRefused(toBuy: int, askSize: int)
    ensures Initial(Some(100)).firstAsk == 105
    ensures Decide(toBuy, Initial(Some(100)), Quote(Some(100), Some(askSize))).decision
            == Skip(AboveCeiling)
  {
  }

  /** Without a target, the first usable quote with a positive ask sets the
      reference ask and is never bought: the ask is above 95% of itself. */
  lemma FirstQuoteNeverBought(toBuy: int, ask: int, askSize: int)
    requires ask > 0
    ensures Decide(toBuy, Initial(None), Quote(Some(ask), Some(askSize)))
            == Tick(State(ask, 0), Skip(AboveCeiling))
  {
  }

  /** An ask size of zero does not stop the loop: a permitted price still
      places an order, for zero shares. */
  lemma ZeroAskSizeStillOrders(toBuy: int, s: State, ask: int)
    requires s.bought < toBuy
    requires Permits(Latch(s.firstAsk, ask), ask)
    ensures Decide(toBuy, s, Quote(Some(ask), Some(0))).decision == Buy(0, ask)
  {
  }

  /** The order parameters `keep_buying` passes to `time_bounded_order`: a
      limit order for the decided size at the decided price, with the
      instance's default account, venue and stock. */
  function DispatchParams(size: int, price: int): Orders.OrderParams
  {
    Orders.OrderParams(size, price, "limit", None, None, None)
  }

  /** Every order the loop decides on passes `order`'s checks and is posted
      as a limit buy of exactly the decided size at exactly the ask. */
  lemma DispatchIsLimitBuyAtAsk(api: Orders.Api, toBuy: int, s: State, q: Quote,
                                response: Responses.Response)
    requires Decide(toBuy, s, q).decision.Buy?
    ensures var d := Decide(toBuy, s, q).decision;
      var c := Orders.Order(api, "buy", DispatchParams(d.size, d.price), response);
      && |c.trace| == 1
      && Orders.ReadPayload(c.trace[0].request.body.value)
         == Some(Orders.Payload(api.account, api.venue, api.stock, d.size, "buy", "limit", q.ask.value))
  {
  }

  /** The call that places one decided order (start.py:134):
      `time_bounded_order`, given keyword arguments only, so it waits the
      default timeout and cancels under the instance's own venue and stock. */
  function DispatchCall(api: Orders.Api, size: int, price: int,
                        placed: Responses.Response, cancelled: Responses.Response): (c: Orders.Call)
    ensures var first := Orders.Order(api, "buy", DispatchParams(size, price), placed);
      first.outcome.Err? ==> c == first
    ensures var first := Orders.Order(api, "buy", DispatchParams(size, price), placed);
      first.outcome.Ok? && first.outcome.value.Obj? && "id" !in first.outcome.value.fields ==>
        c.outcome == Err(Responses.Propagated(Responses.KeyError)) && |c.trace| == 2
    ensures var first := Orders.Order(api, "buy", DispatchParams(size, price), placed);
      first.outcome.Ok? ==>
        && |c.trace| >= 2
        && c.trace[0] == first.trace[0]
        && c.trace[1] == Orders.Sleep(Orders.DefaultTimeoutMillis)
    ensures var first := Orders.Order(api, "buy", DispatchParams(size, price), placed);
      first.outcome.Ok? && first.outcome.value.Obj? && "id" in first.outcome.value.fields ==>
        && |c.trace| == 3
        && c.trace[2] == Orders.Send(Orders.Request(Orders.DELETE,
             Orders.OrderUrl(api.venue, api.stock, first.outcome.value.fields["id"]), None))
        && c.outcome == Orders.Handle(api.client, cancelled)
  {
    Orders.TimeBoundedOrder(api, "buy", DispatchParams(size, price), Orders.DefaultTimeoutMillis,
                            placed, cancelled)
  }

  /** `first_ask or ask` does not latch an ask of 0: with no reference yet,
      an ask of 0 passes the gate and is bought, and the reference stays open
      for the next nonzero ask. */
  lemma ZeroAskDoesNotLatch(toBuy: int, s: State, askSize: int)
    requires s.firstAsk == 0 && s.bought < toBuy
    ensures var t := Decide(toBuy, s, Quote(Some(0), Some(askSize)));
      && t.next == s
      && t.decision.Buy? && t.decision.price == 0
  {
  }

  /** Without a target, asks 0 then 100: the 0 is bought and 100, not 0,
      becomes the reference ask, which then refuses 100. */
  lemma ZeroThenHundred()
    ensures RunFrom(10, Initial(None), [Event(Quote(Some(0), Some(5)), 0), Event(Quote(Some(100), Some(5)), 0)])
      == Run(State(100, 0), [Placed(5, 0, 0)])
  {
  }

  /** `keep_buying`, folded over a finite sequence of events. */
  method RunBuyLoop(toBuy: int, target: Option<int>, events: seq<Event>)
    returns (final: State, placed: seq<Placed>)
    ensures Run(final, placed) == RunFrom(toBuy, Initial(target), events)
    ensures ValidFills(toBuy, Initial(target), events) ==> 0 <= final.bought
    ensures ValidFills(toBuy, Initial(target), events) && toBuy >= 0 ==> final.bought <= toBuy
    ensures |placed| <= |events|
    ensures target.Some? && target.value != 0 ==> final.firstAsk == SeedFirstAsk(target)
  {
    var s := Initial(target);
    placed := [];
    var i := 0;
    while i < |events| && s.bought < toBuy
      invariant 0 <= i <= |events|
      invariant ValidFills(toBuy, Initial(target), events) ==> 0 <= s.bought
      invariant ValidFills(toBuy, Initial(target), events) ==> s.bought <= toBuy || s == Initial(target)
      invariant |placed| <= i
      invariant target.Some? && target.value != 0 ==> s.firstAsk == SeedFirstAsk(target)
      invariant ValidFills(toBuy, Initial(target), events) ==> ValidFills(toBuy, s, events[i..])
      invariant RunFrom(toBuy, Initial(target), events)
        == Run(RunFrom(toBuy, s, events[i..]).final, placed + RunFrom(toBuy, s, events[i..]).placed)
      decreases |events| - i
    {
      var rest := events[i..];
      assert rest[0] == events[i] && rest[1..] == events[i + 1..];
      var t := Decide(toBuy, s, events[i].quote);
      match t.decision {
        case Skip(_) =>
          s := t.next;
        case Buy(size, price) =>
          var p := Placed(size, price, events[i].filled);
          var after := RunFrom(toBuy, ApplyFill(t.next, events[i].filled), events[i + 1..]);
          assert placed + ([p] + after.placed) == (placed + [p]) + after.placed;
          s := ApplyFill(t.next, events[i].filled);
          placed := placed + [p];
      }
      i := i + 1;
    }
    final := s;
  }
}

=== FILE: json.dfy ===
/**
 The JSON values the HTTP wrapper receives from the venue, and the few Python
 conversions the wrapper applies to them: `dict.get`, `str(...)`, the `or`
 fallback on strings, and the decimal rendering of integers used by `%d`.
 */
module Json {

  datatype Option<+T> = None | Some(value: T)

  datatype Result<+T, +E> = Ok(value: T) | Err(error: E)

  /** A decoded JSON document. Numbers are integers: prices are in cents and
      quantities are share counts. */
  datatype Value =
    | Null
    | Bool(b: bool)
    | Num(n: int)
    | Str(s: string)
    | Arr(items: seq<Value>)
    | Obj(fields: map<string, Value>)

  /** `d.get(key)`: a missing key reads as Python's `None`, exactly like an
      explicit JSON `null`. */
  function Get(fields: map<string, Value>, key: string): Value
  {
    if key in fields then fields[key] else Null
  }

  /** Python's `x or y` where `x` is an optional string and `y` a string:
      `None` and `""` are falsy and give way to the fallback. */
  function PyOr(x: Option<string>, y: string): (r: string)
    ensures x.Some? && x.value != "" ==> r == x.value
    ensures x == None || x == Some("") ==> r == y
    ensures r == y || (x.Some? && r == x.value)
  {
    match x
    case Some(s) => if s != "" then s else y
    case None => y
  }

  const Digits: string := "0123456789"

  /** Decimal digits of a natural number, most significant first (`'%d' % n`). */
  function NatToString(n: nat): (s: string)
    ensures |s| > 0
    ensures forall i :: 0 <= i < |s| ==> '0' <= s[i] <= '9'
    decreases n
  {
    if n < 10 then [Digits[n]] else NatToString(n / 10) + [Digits[n % 10]]
  }

  /** `'%d' % i` and `str(i)` for an integer. */
  function IntToString(i: int): (s: string)
    ensures |s| > 0
    ensures i < 0 <==> s[0] == '-'
  {
    if i < 0 then "-" + NatToString(-i) else NatToString(i)
  }

  /** The value of a string of decimal digits; the reading used to show that
      the rendering loses nothing. */
  function DecimalValue(s: string): nat
    decreases |s|
  {
    if |s| == 0 then 0
    else 10 * DecimalValue(s[..|s| - 1]) + DigitValue(s[|s| - 1])
  }

  function DigitValue(c: char): nat
  {
    if '0' <= c <= '9' then c as int - '0' as int else 0
  }

  /** Reads back what `IntToString` wrote. */
  function ParseInt(s: string): int
  {
    if |s| > 0 && s[0] == '-' then -(DecimalValue(s[1..]) as int) else DecimalValue(s)
  }

  lemma DigitRoundTrip(d: nat)
    requires d < 10
    ensures DigitValue(Digits[d]) == d
  {
  }

  lemma {:induction false} NatRoundTrip(n: nat)
    ensures DecimalValue(NatToString(n)) == n
    decreases n
  {
    var s := NatToString(n);
    if n < 10 {
      DigitRoundTrip(n);
      assert s[..|s| - 1] == [];
    } else {
      NatRoundTrip(n / 10);
      DigitRoundTrip(n % 10);
      assert s[..|s| - 1] == NatToString(n / 10);
    }
  }

  /** The decimal rendering of an integer is faithful: it parses back. */
  lemma IntRoundTrip(i: int)
    ensures ParseInt(IntToString(i)) == i
  {
    var s := IntToString(i);
    if i < 0 {
      NatRoundTrip(-i);
      assert s[1..] == NatToString(-i);
    } else {
      NatRoundTrip(i);
    }
  }

  /** Python's `str(v)` on a decoded JSON value. Scalars are rendered as
      Python renders them; arrays and objects are rendered as fixed markers. */
  function PyStr(v: Value): (s: string)
    ensures v.Str? ==> s == v.s
    ensures v.Num? ==> ParseInt(s) == v.n
    ensures v.Null? ==> s == "None"
    ensures !v.Str? ==> s != ""
  {
    match v
    case Null => "None"
    case Bool(b) => if b then "True" else "False"
    case Num(n) => IntRoundTrip(n); IntToString(n)
    case Str(s) => s
    case Arr(_) => "[...]"
    case Obj(_) => "{...}"
  }
}

=== FILE: orders.dfy ===
/**
 The order-entry side of the HTTP wrapper: `API.order` with its argument
 checks and payload construction, the `buy`/`sell` shorthands, `quote`,
 `cancel_order`, and `time_bounded_order`, which places an order, waits and
 cancels it. The network is an input: each call receives the response the
 venue would give and returns the requests it sends, in order, together with
 its outcome.

 The library (`wrappers.py`) and the buying script (`chock_a_block/start.py`)
 each carry an `API` class with the same methods; they differ only in the
 response handler, which `Client` selects.
 */
module Orders {
  import opened Json
  import opened Responses

  const BaseUrl := "https://api.stockfighter.io/ob/api"

  const Directions: set<string> := {"buy", "sell"}
  const OrderTypes: set<string> := {"market", "limit", "fill-or-kill", "immediate-or-cancel"}

  const DirectionMessage := "`direction` must be either 'buy' or 'sell'"
  const OrderTypeMessage :=
    "`order_type` must be one of {'market', 'limit', 'fill-or-kill', 'immediate-or-cancel'}"

  /** Which of the two `API` classes is in use. */
  datatype Client = Library | Script

  /** An `API` instance: the defaults given at construction. */
  datatype Api = Api(client: Client, account: string, venue: string, stock: string)

  /** The arguments of `order` after `direction`: `shares`, `price`,
      `order_type`, and the optional `account`, `venue`, `stock` overrides. */
  datatype OrderParams = OrderParams(
    shares: int,
    price: int,
    orderType: string,
    account: Option<string>,
    venue: Option<string>,
    stock: Option<string>)

  /** The order document posted to the venue. */
  datatype Payload = Payload(
    account: string,
    venue: string,
    symbol: string,
    qty: int,
    direction: string,
    orderType: string,
    price: int)

  datatype Verb = GET | POST | DELETE

  datatype Request = Request(verb: Verb, url: string, body: Option<Value>)

  /** One observable step of a call: a request sent, or a pause. */
  datatype Event = Send(request: Request) | Sleep(millis: int)

  /** What a call did (its events, in order) and what it returned or raised. */
  datatype Call = Call(trace: seq<Event>, outcome: Result<Value, Raised>)

  /** The response handler of each `API` class. */
  function Handle(client: Client, r: Response): Result<Value, Raised>
  {
    match client
    case Library => UnwrapResponse(r)
    case Script => HandleResponseError(r)
  }

  function StockUrl(venue: string, symbol: string): string
  {
    BaseUrl + "/venues/" + venue + "/stocks/" + symbol
  }

  function OrdersUrl(venue: string, symbol: string): string
  {
    StockUrl(venue, symbol) + "/orders"
  }

  function OrderUrl(venue: string, symbol: string, id: Value): string
  {
    OrdersUrl(venue, symbol) + "/" + PyStr(id)
  }

  function QuoteUrl(venue: string, symbol: string): string
  {
    StockUrl(venue, symbol) + "/quote"
  }

  /** The two assertions at the top of `order`, direction first. */
  function CheckOrder(direction: string, orderType: string): (e: Option<Raised>)
    ensures e == None <==> direction in Directions && orderType in OrderTypes
    ensures e.Some? ==> e.value.Raised? && e.value.cls == AssertionError
    ensures direction !in Directions ==> e == Some(Raised(AssertionError, DirectionMessage))
  {
    if direction !in Directions then Some(Raised(AssertionError, DirectionMessage))
    else if orderType !in OrderTypes then Some(Raised(AssertionError, OrderTypeMessage))
    else None
  }

  /** The order dictionary: each routing field is the explicit argument when
      it is truthy, otherwise the instance default; the rest is copied. */
  function BuildPayload(api: Api, direction: string, p: OrderParams): (o: Payload)
    ensures o.qty == p.shares && o.direction == direction
    ensures o.orderType == p.orderType && o.price == p.price
    ensures if p.account.Some? && p.account.value != "" then o.account == p.account.value
            else o.account == api.account
    ensures if p.venue.Some? && p.venue.value != "" then o.venue == p.venue.value
            else o.venue == api.venue
    ensures if p.stock.Some? && p.stock.value != "" then o.symbol == p.stock.value
            else o.symbol == api.stock
  {
    Payload(
      PyOr(p.account, api.account),
      PyOr(p.venue, api.venue),
      PyOr(p.stock, api.stock),
      p.shares, direction, p.orderType, p.price)
  }

  /** `json.dumps(order)`: the payload as the JSON document sent. */
  function PayloadJson(p: Payload): (v: Value)
    ensures v.Obj?
    ensures v.fields.Keys
      == {"account", "venue", "symbol", "qty", "direction", "orderType", "price"}
  {
    Obj(map[
      "account" := Str(p.account),
      "venue" := Str(p.venue),
      "symbol" := Str(p.symbol),
      "qty" := Num(p.qty),
      "direction" := Str(p.direction),
      "orderType" := Str(p.orderType),
      "price" := Num(p.price)])
  }

  /** How the venue reads an order document back. */
  function ReadPayload(v: Value): Option<Payload>
  {
    if v.Obj? && Get(v.fields, "account").Str? && Get(v.fields, "venue").Str?
       && Get(v.fields, "symbol").Str? && Get(v.fields, "qty").Num?
       && Get(v.fields, "direction").Str? && Get(v.fields, "orderType").Str?
       && Get(v.fields, "price").Num?
    then Some(Payload(
      Get(v.fields, "account").s, Get(v.fields, "venue").s, Get(v.fields, "symbol").s,
      Get(v.fields, "qty").n, Get(v.fields, "direction").s,
      Get(v.fields, "orderType").s, Get(v.fields, "price").n))
    else None
  }

  /** The posted document carries every field of the order, unchanged. */
  lemma PayloadRoundTrip(p: Payload)
    ensures ReadPayload(PayloadJson(p)) == Some(p)
  {
    var f := PayloadJson(p).fields;
    assert Get(f, "account") == Str(p.account);
    assert Get(f, "venue") == Str(p.venue);
    assert Get(f, "symbol") == Str(p.symbol);
    assert Get(f, "qty") == Num(p.qty);
    assert Get(f, "direction") == Str(p.direction);
    assert Get(f, "orderType") == Str(p.orderType);
    assert Get(f, "price") == Num(p.price);
  }

  /** `API.order`: check the arguments, then post the order document to the
      orders URL of the payload's own venue and symbol, and hand the
      response to the client's handler. */
  function Order(api: Api, direction: string, p: OrderParams, response: Response): (c: Call)
    ensures direction !in Directions || p.orderType !in OrderTypes ==>
      c.trace == [] && c.outcome.Err? && c.outcome.error.cls == AssertionError
    ensures direction in Directions && p.orderType in OrderTypes ==>
      && |c.trace| == 1
      && c.trace[0].Send?
      && c.trace[0].request.verb == POST
      && c.trace[0].request.body == Some(PayloadJson(BuildPayload(api, direction, p)))
      && ReadPayload(c.trace[0].request.body.value) == Some(BuildPayload(api, direction, p))
      && c.trace[0].request.url
         == OrdersUrl(PyOr(p.venue, api.venue), PyOr(p.stock, api.stock))
      && c.outcome == Handle(api.client, response)
  {
    match CheckOrder(direction, p.orderType)
    case Some(e) => Call([], Err(e))
    case None =>
      var order := BuildPayload(api, direction, p);
      PayloadRoundTrip(order);
      var request := Request(POST, OrdersUrl(order.venue, order.symbol), Some(PayloadJson(order)));
      Call([Send(request)], Handle(api.client, response))
  }

  /** `API.buy`: `order` with the direction fixed to `'buy'`. */
  function Buy(api: Api, p: OrderParams, response: Response): (c: Call)
    ensures c == Order(api, "buy", p, response)
    ensures p.orderType in OrderTypes ==>
      |c.trace| == 1 && ReadPayload(c.trace[0].request.body.value).value.direction == "buy"
  {
    Order(api, "buy", p, response)
  }

  /** `API.sell`: `order` with the direction fixed to `'sell'`. */
  function Sell(api: Api, p: OrderParams, response: Response): (c: Call)
    ensures c == Order(api, "sell", p, response)
    ensures p.orderType in OrderTypes ==>
      |c.trace| == 1 && ReadPayload(c.trace[0].request.body.value).value.direction == "sell"
  {
    Order(api, "sell", p, response)
  }

  /** `API.quote`: one GET of the quote URL. */
  function Quote(api: Api, venue: Option<string>, stock: Option<string>, response: Response): (c: Call)
    ensures c.trace == [Send(Request(GET, QuoteUrl(PyOr(venue, api.venue), PyOr(stock, api.stock)), None))]
    ensures c.outcome == Handle(api.client, response)
    ensures c.outcome.Ok? ==> response.status < 400 && response.decoded == Some(c.outcome.value)
  {
    Call([Send(Request(GET, QuoteUrl(PyOr(venue, api.venue), PyOr(stock, api.stock)), None))],
         Handle(api.client, response))
  }

  /** `API.cancel_order`: one DELETE of the order's URL. */
  function CancelOrder(api: Api, id: Value, venue: Option<string>, stock: Option<string>,
                       response: Response): (c: Call)
    ensures |c.trace| == 1 && c.trace[0].Send? && c.trace[0].request.verb == DELETE
    ensures c.trace[0].request.url == OrderUrl(PyOr(venue, api.venue), PyOr(stock, api.stock), id)
    ensures c.outcome == Handle(api.client, response)
    ensures c.outcome.Ok? ==> response.status < 400 && response.decoded == Some(c.outcome.value)
  {
    Call([Send(Request(DELETE, OrderUrl(PyOr(venue, api.venue), PyOr(stock, api.stock), id), None))],
         Handle(api.client, response))
  }

  /** The cancel URL names the order: for a numeric id, the text after the
      orders URL and its slash reads back as that id. */
  lemma CancelUrlCarriesId(api: Api, n: int, venue: Option<string>, stock: Option<string>,
                           response: Response)
    ensures var url := CancelOrder(api, Num(n), venue, stock, response).trace[0].request.url;
      var prefix := OrdersUrl(PyOr(venue, api.venue), PyOr(stock, api.stock)) + "/";
      |prefix| <= |url| && url[..|prefix|] == prefix && ParseInt(url[|prefix|..]) == n
  {
    var url := CancelOrder(api, Num(n), venue, stock, response).trace[0].request.url;
    var prefix := OrdersUrl(PyOr(venue, api.venue), PyOr(stock, api.stock)) + "/";
    assert url == prefix + PyStr(Num(n));
    assert url[|prefix|..] == PyStr(Num(n));
  }

  /** A quote and an order with the same overrides address the same stock:
      both URLs extend the stock URL of the resolved venue and symbol. */
  lemma QuoteAndOrderShareStock(api: Api, direction: string, p: OrderParams,
                                placed: Response, quoted: Response)
    requires direction in Directions && p.orderType in OrderTypes
    ensures var q := Quote(api, p.venue, p.stock, quoted).trace[0].request.url;
      var o := Order(api, direction, p, placed).trace[0].request.url;
      var stock := StockUrl(PyOr(p.venue, api.venue), PyOr(p.stock, api.stock));
      |stock| <= |q| && |stock| <= |o| && q[..|stock|] == stock && o[..|stock|] == stock
  {
    var stock := StockUrl(PyOr(p.venue, api.venue), PyOr(p.stock, api.stock));
    assert (stock + "/quote")[..|stock|] == stock;
    assert (stock + "/orders")[..|stock|] == stock;
  }

  /** The grace period `time_bounded_order` waits by default (0.5 s). */
  const DefaultTimeoutMillis := 500

  /** `API.time_bounded_order`: place the order, wait `timeout`, then cancel
      the id the placement returned, passing on only the `venue` and `stock`
      overrides. The result is the cancel's response. A failed placement
      stops before the wait; a placement body without `id` fails after it. */
  function TimeBoundedOrder(api: Api, direction: string, p: OrderParams, timeoutMillis: int,
                            placed: Response, cancelled: Response): (c: Call)
    ensures var first := Order(api, direction, p, placed);
      first.outcome.Err? ==> c == first
    ensures var first := Order(api, direction, p, placed);
      first.outcome.Ok? ==> |c.trace| >= 2 && c.trace[..2] == first.trace + [Sleep(timeoutMillis)]
    ensures var first := Order(api, direction, p, placed);
      first.outcome.Ok? && first.outcome.value.Obj? && "id" !in first.outcome.value.fields ==>
        c == Call(first.trace + [Sleep(timeoutMillis)], Err(Propagated(KeyError)))
    ensures c.outcome.Ok? ==>
      && |c.trace| == 3
      && c.trace[0].Send? && c.trace[0].request.verb == POST
      && c.trace[1] == Sleep(timeoutMillis)
      && c.trace[2].Send? && c.trace[2].request.verb == DELETE
      && c.outcome == Handle(api.client, cancelled)
    ensures var first := Order(api, direction, p, placed);
      first.outcome.Ok? && first.outcome.value.Obj? && "id" in first.outcome.value.fields ==>
        && c.outcome == Handle(api.client, cancelled)
        && |c.trace| == 3
        && c.trace[2] == Send(Request(DELETE,
             OrderUrl(PyOr(p.venue, api.venue), PyOr(p.stock, api.stock),
                      first.outcome.value.fields["id"]), None))
  {
    var first := Order(api, direction, p, placed);
    match first.outcome
    case Err(_) => first
    case Ok(body) =>
      var waited := first.trace + [Sleep(timeoutMillis)];
      if body.Obj? && "id" in body.fields then
        var cancel := CancelOrder(api, body.fields["id"], p.venue, p.stock, cancelled);
        Call(waited + cancel.trace, cancel.outcome)
      else
        Call(waited, Err(Propagated(KeyError)))
  }
}

=== FILE: responses.dfy ===
/**
 Turning an HTTP response from the venue into either its decoded body or a
 raised exception. The library (`wrappers.py`, `unwrap_response`) and the
 buying script (`chock_a_block/start.py`, `handle_response_error`) apply the
 same checks in the same order; they differ only in the exception classes
 they raise and in how an undecodable body is reported. Both are defined
 here through one classification, `Classify`.
 */
module Responses {
  import opened Json

  /** What a response offers the handler: its status code, its raw text and
      the result of `response.json()` (`None` when the body cannot be decoded
      as JSON). */
  datatype Response = Response(status: int, text: string, decoded: Option<Value>)

  /** Why a response is not usable, before either handler picks an exception. */
  datatype Failure =
    | StatusError(status: int)    // status 400 or above
    | Undecodable(text: string)   // `response.json()` failed
    | NotAnObject(body: Value)    // decoded, but not a dict: `body.get` fails
    | Rejected(detail: Value)     // `ok` is exactly False; `detail` is `body.get('error')`

  /** The Python exception classes that leave the handlers. */
  datatype ExceptionClass =
    | Exception
    | HTTPError
    | APIError
    | AttributeError
    | DecodeError
    | AssertionError
    | KeyError

  /** A raised exception: either one the handler constructs with a message,
      or one a library call raises and the handler lets through. */
  datatype Raised =
    | Raised(cls: ExceptionClass, message: string)
    | Propagated(cls: ExceptionClass)

  /** `issubclass(c, d)`: in the library, `APIError` derives from `HTTPError`. */
  predicate IsSubclass(c: ExceptionClass, d: ExceptionClass)
  {
    c == d || d == Exception || (c == APIError && d == HTTPError)
  }

  const HttpErrorPrefix := "HTTP Error: "
  const ApiErrorPrefix := "API Error: "
  const UndecodablePrefix := "Could not extract json body: "

  /** The common decision procedure: status first, then decoding, then the
      `ok` flag of the body. */
  function Classify(r: Response): (c: Result<Value, Failure>)
    ensures r.status >= 400 ==> c == Err(StatusError(r.status))
    ensures r.status < 400 && r.decoded == None ==> c == Err(Undecodable(r.text))
    ensures c.Ok? <==>
      r.status < 400 && r.decoded.Some? && r.decoded.value.Obj?
      && Get(r.decoded.value.fields, "ok") != Bool(false)
    ensures c.Ok? ==> r.decoded == Some(c.value)
    ensures c.Err? && c.error.Rejected? <==>
      r.status < 400 && r.decoded.Some? && r.decoded.value.Obj?
      && Get(r.decoded.value.fields, "ok") == Bool(false)
    ensures c.Err? && c.error.Rejected? ==>
      c.error.detail == Get(r.decoded.value.fields, "error")
    ensures r.status < 400 && r.decoded.Some? && !r.decoded.value.Obj? ==>
      c == Err(NotAnObject(r.decoded.value))
  {
    if r.status >= 400 then Err(StatusError(r.status))
    else match r.decoded
      case None => Err(Undecodable(r.text))
      case Some(body) =>
        match body
        case Obj(fields) =>
          if Get(fields, "ok") == Bool(false) then Err(Rejected(Get(fields, "error")))
          else Ok(body)
        case _ => Err(NotAnObject(body))
  }

  /** `'HTTP Error: %d' % status`. */
  function HttpErrorMessage(status: int): (m: string)
    ensures |m| > |HttpErrorPrefix| && m[..|HttpErrorPrefix|] == HttpErrorPrefix
    ensures ParseInt(m[|HttpErrorPrefix|..]) == status
  {
    IntRoundTrip(status);
    var m := HttpErrorPrefix + IntToString(status);
    assert m[|HttpErrorPrefix|..] == IntToString(status);
    m
  }

  /** `'API Error: %s' % body.get('error') or 'unspecified'`. The `%` binds
      tighter than `or`, so the left operand is the already formatted,
      never empty, message and the fallback is never taken. */
  function ApiErrorMessage(detail: Value): (m: string)
    ensures m == ApiErrorPrefix + PyStr(detail)
    ensures m != "unspecified"
  {
    var formatted := ApiErrorPrefix + PyStr(detail);
    assert formatted[0] == 'A' != "unspecified"[0];
    PyOr(Some(formatted), "unspecified")
  }

  /** `'Could not extract json body: %r' % text`, with the text quoted. */
  function UndecodableMessage(text: string): (m: string)
    ensures |m| == |UndecodablePrefix| + |text| + 2
    ensures m[..|UndecodablePrefix|] == UndecodablePrefix
    ensures m[|UndecodablePrefix| + 1..|m| - 1] == text
  {
    var m := UndecodablePrefix + "'" + text + "'";
    assert m[|UndecodablePrefix| + 1..|m| - 1] == text;
    m
  }

  /** `unwrap_response` of the library. */
  function UnwrapResponse(r: Response): (o: Result<Value, Raised>)
    ensures r.status >= 400 ==> o == Err(Raised(HTTPError, HttpErrorMessage(r.status)))
    ensures r.status < 400 && r.decoded == None ==>
      o == Err(Raised(APIError, UndecodableMessage(r.text)))
    ensures o.Ok? ==> r.decoded == Some(o.value) && o.value.Obj?
    ensures r.status < 400 && r.decoded.Some? && r.decoded.value.Obj? ==>
      if Get(r.decoded.value.fields, "ok") == Bool(false)
      then o == Err(Raised(APIError, ApiErrorPrefix + PyStr(Get(r.decoded.value.fields, "error"))))
      else o == Ok(r.decoded.value)
    ensures r.status < 400 && r.decoded.Some? && !r.decoded.value.Obj? ==>
      o == Err(Propagated(AttributeError))
    ensures o.Err? && !IsSubclass(o.error.cls, HTTPError) ==>
      o.error == Propagated(AttributeError)
  {
    match Classify(r)
    case Ok(body) => Ok(body)
    case Err(StatusError(s)) => Err(Raised(HTTPError, HttpErrorMessage(s)))
    case Err(Undecodable(t)) => Err(Raised(APIError, UndecodableMessage(t)))
    case Err(NotAnObject(_)) => Err(Propagated(AttributeError))
    case Err(Rejected(d)) => Err(Raised(APIError, ApiErrorMessage(d)))
  }

  /** `handle_response_error` of the buying script: plain `Exception`s, and a
      decoding failure escapes as whatever `response.json()` raised. */
  function HandleResponseError(r: Response): (o: Result<Value, Raised>)
    ensures r.status >= 400 ==> o == Err(Raised(Exception, HttpErrorMessage(r.status)))
    ensures r.status < 400 && r.decoded == None ==> o == Err(Propagated(DecodeError))
    ensures o.Ok? ==> r.decoded == Some(o.value) && o.value.Obj?
    ensures r.status < 400 && r.decoded.Some? && r.decoded.value.Obj? ==>
      if Get(r.decoded.value.fields, "ok") == Bool(false)
      then o == Err(Raised(Exception, ApiErrorPrefix + PyStr(Get(r.decoded.value.fields, "error"))))
      else o == Ok(r.decoded.value)
    ensures r.status < 400 && r.decoded.Some? && !r.decoded.value.Obj? ==>
      o == Err(Propagated(AttributeError))
  {
    match Classify(r)
    case Ok(body) => Ok(body)
    case Err(StatusError(s)) => Err(Raised(Exception, HttpErrorMessage(s)))
    case Err(Undecodable(_)) => Err(Propagated(DecodeError))
    case Err(NotAnObject(_)) => Err(Propagated(AttributeError))
    case Err(Rejected(d)) => Err(Raised(Exception, ApiErrorMessage(d)))
  }

  /** A status of 400 or above decides the outcome: the body is never looked at. */
  lemma StatusDominates(r: Response, r': Response)
    requires r.status >= 400 && r'.status == r.status
    ensures UnwrapResponse(r) == UnwrapResponse(r')
    ensures HandleResponseError(r) == HandleResponseError(r')
  {
  }

  /** A body whose `ok` is missing, null, true or any non-boolean (even `0`)
      comes back unchanged; only the boolean `false` is an API error. */
  lemma OnlyFalseIsRejected(status: int, text: string, fields: map<string, Value>)
    requires status < 400
    ensures var o := UnwrapResponse(Response(status, text, Some(Obj(fields))));
      o.Err? <==> Get(fields, "ok") == Bool(false)
    ensures "ok" !in fields ==>
      UnwrapResponse(Response(status, text, Some(Obj(fields)))) == Ok(Obj(fields))
    ensures Get(fields, "ok") == Num(0) ==>
      UnwrapResponse(Response(status, text, Some(Obj(fields)))) == Ok(Obj(fields))
  {
  }

  /** An API error without an `error` field reads "API Error: None", not
      "API Error: unspecified". */
  lemma MissingDetailIsNone(status: int, text: string)
    requires status < 400
    ensures UnwrapResponse(Response(status, text, Some(Obj(map["ok" := Bool(false)]))))
      == Err(Raised(APIError, "API Error: None"))
  {
    var fields := map["ok" := Bool(false)];
    assert Get(fields, "ok") == Bool(false);
    assert Get(fields, "error") == Null;
    assert ApiErrorPrefix + PyStr(Null) == "API Error: None";
  }

  /** The two handlers accept exactly the same responses and return the same
      body; they raise on the same responses with the same messages, except
      that only the library reports an undecodable body itself. */
  lemma HandlersAgree(r: Response)
    ensures UnwrapResponse(r).Ok? <==> HandleResponseError(r).Ok?
    ensures UnwrapResponse(r).Ok? ==> UnwrapResponse(r) == HandleResponseError(r)
    ensures r.status >= 400 || r.decoded.Some? ==>
      match (UnwrapResponse(r), HandleResponseError(r))
      case (Err(Raised(c, m)), Err(Raised(c', m'))) =>
        m == m' && IsSubclass(c, c') && c' == Exception
      case (Err(Propagated(c)), Err(Propagated(c'))) => c == c' == AttributeError
      case (Ok(b), Ok(b')) => b == b'
      case _ => false
  {
  }
}
